=== FILE: README.md ===
# Cloud SQL Go connector: dialer and instance-name resolver

A Dafny model of two pieces of the Cloud SQL Go connector (`cloudsqlconn`), with proofs about each.

**The instance-name resolver** (`DNSInstanceConnectionNameResolver`) turns a string into an instance connection name.
- A string that already parses as `project:region:instance` is returned as is, and DNS is never asked.
- Any other string is treated as a domain name, and its SRV records are looked up.
- The records are sorted by priority and then by target, both ascending.
- Trailing dots are stripped from each target. The first target that parses wins.
- If no target parses, the error is the first that applies of: the lookup error, then the last parse error, then "no valid SRV records".

**The Dialer** keeps a registry with one metadata provider (`*cloudsql.Instance`) per connection name, created on first use. `Dial` runs these steps in order:
1. Get or create the provider.
2. Ask it for `ConnectInfo`.
3. Dial TCP on port 3307.
4. Enable keep-alive and set its period on a TCP connection.
5. Do the TLS handshake.
6. Count the connection in `openConns`.
7. Return a connection whose successful `Close` uncounts it.

A TCP dial failure and a handshake failure both ask the provider to `ForceRefresh`. `Dialer.Close` closes every provider in the registry.

## How the model is built

- `wrappers.dfy`: `Option` and `Result`, standing in for Go's nil-able errors.
- `order.dfy` (module `SrvOrder`): the resolver's record order. Targets are compared the way Go compares strings, byte-wise on UTF-8. Comparing Unicode scalar values character by character gives the same order. The module also has the sort and a proof that a multiset of records has exactly one sorted arrangement.
- `resolver.dfy` (module `Resolver`): `queryDNS` and `Lookup`.
  - The SRV lookup is the input `SrvAnswer`: the records, plus an error that may be present alongside them.
  - `instance.ParseConnName` is the parameter `parse`. Its grammar is not part of this model.
  - Results keep Go's `(ConnName, error)` shape, so "never a name together with an error" is a property, not a given.
- `dialer.dfy` (module `Dialer`): the Dialer as an immutable state record. It holds the registry map, the `openConns` counters, the default dial configuration, an event log and the `done` flag.
  - Each collaborator call gets its outcome from a `DialEnv` value: `NewInstance`, `ConnectInfo`, the dial function, the keep-alive setters and the handshake.
  - The outcome of the underlying connection `Close` is a parameter of `CloseConn`.
  - The log records the calls the Dialer makes on providers and sockets. `Run` applies a sequence of dials and closes, so that accounting can be stated over whole histories.

Three behaviours of the code worth knowing:
- The code increments the counter on a goroutine (dialer.go:230-235) and decrements it on another (dialer.go:267), so the count can lag the call. The model applies both updates immediately, as part of the step that triggers them.
- On a keep-alive failure the code returns the dial error without closing the connection it just opened. The model does the same: no `SocketClosed` event on that path.
- `instrumentedConn.Close` decrements its instance's counter whenever the underlying close succeeds (dialer.go:260-269), with no check that the connection was counted or is still open. So a successful close of a connection no dial returned takes the counter below its true value. A second close of the same connection would do the same if the underlying `Close` reported success again; that outcome is an input of the model. The model keeps this, and states non-negativity only for histories that close connections a dial returned and that are still open.

## Model

| member | source | states |
|---|---|---|
| SrvOrder.SortRecords | internal/cloudsql/resolver.go:84-89 | the sorted records are ascending by priority and then by target, and are exactly the records looked up (same multiset) |
| SrvOrder.SortedUnique | internal/cloudsql/resolver.go:84-89 | two sorted sequences holding the same records are equal, so the unstable `sort.Slice` still has only one possible outcome |
| SrvOrder.SortRecordsOrderIndependent | internal/cloudsql/resolver.go:84-89 | the sorted records do not depend on the order the lookup returned them in |
| SrvOrder.RecordOrderAntisymmetric | internal/cloudsql/resolver.go:84-89 | two records that each sort no later than the other are the same record, so the comparator's ties are only between identical records |
| Resolver.TrimRightDots | internal/cloudsql/resolver.go:94-95 | the trimmed target is a prefix of the target, does not end in a dot, and only dots were removed |
| Resolver.TrimRightDotsIgnoresTrailingDots | internal/cloudsql/resolver.go:94-95 | every trailing dot is removed, not just one: a name with any number of dots appended trims to the same name |
| Resolver.ScanRecords | internal/cloudsql/resolver.go:91-117 | the loop over sorted records never returns a name together with an error. A success carries the parse of some record whose target parses |
| Resolver.ScanSucceedsIffParseable | internal/cloudsql/resolver.go:91-104 | the loop succeeds if and only if some record's trimmed target parses, whatever the lookup error |
| Resolver.ScanReturnsFirstParseable | internal/cloudsql/resolver.go:91-104 | when a record is the first one that parses, the loop returns its name with no error. The unparseable records before it are skipped |
| Resolver.ScanErrorTiers | internal/cloudsql/resolver.go:91-117 | when the loop finds nothing: the lookup error if there was one, else the parse error of the last record, else "no valid SRV records" for an empty list |
| Resolver.QueryDNS | internal/cloudsql/resolver.go:75-118 | a failure returns the zero name, and a success returns the parse of some looked-up record whose trimmed target parses |
| Resolver.QueryDNSResolves | internal/cloudsql/resolver.go:75-104 | success exactly when some looked-up record parses, whether or not the lookup also reported an error. The name is parsed from the parseable record that sorts first by (priority, target) |
| Resolver.QueryDNSErrorTiers | internal/cloudsql/resolver.go:106-117 | on failure, a lookup error outranks parse errors. Without one, the error is the parse error of the record that sorts last. With no records and no lookup error, it is "no valid SRV records" for the domain |
| Resolver.QueryDNSOrderIndependent | internal/cloudsql/resolver.go:84-104 | the reply (name or error) is the same for any order of the same looked-up records |
| Resolver.PartialLookupFailureStillResolves | internal/cloudsql/resolver.go:76-104 | when the lookup returns an error together with a parseable record, `Lookup` still succeeds |
| Resolver.LowestPriorityExample | internal/cloudsql/resolver.go:84-104 | records `{10, "p:r:b."}` and `{5, "p:r:a."}` resolve to `p:r:a`: lowest priority wins and the trailing dot is dropped |
| Resolver.Lookup | internal/cloudsql/resolver.go:50-62 | a string that parses is returned as its parse with no error, whatever DNS would say. Any other string gets exactly `queryDNS`'s reply, name or error |
| Dialer.NewDialer | dialer.go:146-169 | a new Dialer has an empty registry, no counters, no calls and is not closed. Without dial options its default is public IP with a 30-second keep-alive |
| Dialer.GetOrCreate | dialer.go:311-333 | a cached name returns its provider and changes nothing. On a miss, a successful construction inserts exactly that name and that provider. A failed construction returns the error and changes nothing |
| Dialer.GetOrCreateStable | dialer.go:311-333 | once a provider is returned, every later call for the name returns the same provider and leaves the Dialer unchanged, whatever construction would do |
| Dialer.GetOrCreateRetriesAfterFailure | dialer.go:320-328 | a failed construction leaves the registry as it was, so the next call constructs again and caches the new provider |
| Dialer.Secure | dialer.go:214-228 | the connection is secured exactly when keep-alive (on a TCP connection) and the handshake succeed. Only a failed handshake refreshes, and then this provider exactly once; it also closes the connection and fails with "handshake failed" and its cause. A keep-alive failure returns its own error with its cause, refreshes nothing and closes nothing. The connection is closed exactly when the handshake fails, so never when it is returned. On a TCP connection keep-alive is enabled first; on any other kind neither keep-alive setter is called. The log is exactly the calls the code makes, in its order: enable keep-alive and, only if that worked, set the period (TCP only); then, after a failed handshake, refresh before closing. No provider is closed and no other socket is touched |
| Dialer.SecureCalls | dialer.go:214-227 | the securing phase's calls refresh the provider once, and close the connection, exactly after a failed handshake; on TCP they start by enabling keep-alive, on any other kind they never touch keep-alive; and they involve only this connection and this provider |
| Dialer.Connect | dialer.go:206-228 | the first call is a TCP dial of the `ConnectInfo` address on port 3307, and no second dial follows. A TCP dial failure refreshes this provider and fails with "failed to dial" and its cause, and nothing else happens. Otherwise the securing phase follows. Exactly the TCP dial and handshake failures refresh, each once, and every error names the provider |
| Dialer.SecureErrors | dialer.go:214-228 | every error out of the securing phase is a dial error naming the provider, and the errors of the refreshing kind are exactly the handshake failures |
| Dialer.KeepAlivePeriodBeforeHandshake | dialer.go:214-222 | a TCP connection that reaches the handshake has had its keep-alive period set from the call's configuration |
| Dialer.Dial | dialer.go:177-242 | per-call options leave the Dialer's defaults and `done` unchanged. The registry changes only through get-or-create, and the call log only grows. A successful dial adds one to the instance's counter. A failed dial leaves every counter unchanged |
| Dialer.ProviderPhase | dialer.go:197-241 | with a provider in hand, the first call is `ConnectInfo` with the call's IP type. Its error is returned unchanged and nothing follows it. Otherwise the connection phase runs |
| Dialer.DialStages | dialer.go:185-201 | an error from get-or-create is returned unchanged and leaves the Dialer as it was. Otherwise the outcome and the calls made are the provider phase's, with the options applied to a copy of the defaults |
| Dialer.DialConnectInfoFailure | dialer.go:197-201 | a `ConnectInfo` error is returned unchanged. Its call is the only one made: no dial and no refresh. No counter moves |
| Dialer.DialRefreshPolicy | dialer.go:208-228 | `Dial` refreshes if and only if it held a provider, `ConnectInfo` answered, and then the TCP dial failed or the handshake failed. It then refreshes exactly once, the provider cached for the instance, and the error names that provider. A keep-alive failure never refreshes |
| Dialer.DialFailureErrors | dialer.go:208-228 | once `Dial` holds a provider and `ConnectInfo` answered: a TCP dial failure returns "failed to dial", and a handshake failure returns "handshake failed" after closing the connection. Each error carries the provider's `String()` and the collaborator's cause |
| Dialer.DialKeepAliveErrors | dialer.go:214-221 | a failure to enable keep-alive or to set its period returns "failed to set keep-alive" or "failed to set keep-alive period" with its cause and the provider's `String()`, and the connection is not closed |
| Dialer.DialSucceedsIff | dialer.go:185-241 | a dial succeeds exactly when every stage does: get-or-create, `ConnectInfo`, the TCP dial, keep-alive on a TCP connection, and the handshake |
| Dialer.DialReturnsDialedConn | dialer.go:208-241 | a successful dial returns the connection the TCP dial produced, tied to the instance name it was asked for, so its close releases that instance's counter |
| Dialer.DialSuccessLeavesConnOpen | dialer.go:214-241 | a successful dial never closes the connection it returns, and on a TCP connection it has enabled keep-alive on it |
| Dialer.CloseConn | dialer.go:260-269 | `Close` returns the underlying close error unchanged. On an error nothing changes; on success the connection's counter goes down by one |
| Dialer.DialThenCloseRestoresCounts | dialer.go:229-269 | a successful dial followed by a successful close of its connection leaves every counter as it was |
| Dialer.Step | dialer.go:177-269 | a dial reports a counted connection exactly when it succeeded, and a close reports a released one exactly when the underlying close did. The reported counter moves by one and no other counter moves. Every cached provider is kept |
| Dialer.Run | dialer.go:177-269 | every counted connection in a history comes from a dial of that instance, and every released one from a close of that instance's connection. The defaults and the shutdown state never change |
| Dialer.RunCountsBalance | dialer.go:229-269 | over any history of dials and closes, each counter moves by its successful dials minus its successful closes |
| Dialer.RunPairedRestoresCount | dialer.go:229-269 | a history with as many successful closes as successful dials of an instance returns its counter to the start |
| Dialer.StepTracksLive | dialer.go:229-269 | a dial or a close of an open connection moves an instance's counter exactly as it moves that instance's number of open connections: a successful dial adds the connection it returned, a successful close removes it |
| Dialer.RunTracksLive | dialer.go:229-269 | over a history whose successful closes are all of open connections, each counter minus that instance's number of open connections stays constant |
| Dialer.ClosingOnlyLiveKeepsCountsNonNegative | dialer.go:229-269 | from a new Dialer, a history that closes only connections a dial returned and that are not yet closed leaves every counter equal to that instance's number of open connections, so never negative |
| Dialer.UnmatchedCloseGoesNegative | dialer.go:260-269 | the decrement is unconditional: closing a connection no dial returned takes a new Dialer's counter to -1 |
| Dialer.RunKeepsProviders | dialer.go:311-333 | no history replaces or drops a cached provider, so a name has at most one provider in the Dialer's lifetime |
| Dialer.Close | dialer.go:302-308 | every provider in the registry gets one close call, nothing else is called, and the Dialer is marked done. Registry and counters are unchanged |

## Left out

- `NewDialer` plumbing is not modelled: the sqladmin client, OAuth and default token sources, the user agent, the `uuid` dialer ID and the metrics collector. `NewDialer` keeps only the initial state and the default dial configuration.
- `getDefaultKeys` (lazy RSA key generation under `sync.Once`) is not modelled. It is key material with no effect on the control logic.
- `reportOpenConns` is not modelled. It is a ticker loop that snapshots `openConns` for metrics, and it depends on timing and scheduling.
- Tracing spans and latency metrics are not modelled. They are observability only.
- Concurrency: the `RWMutex` double-checked locking is not modelled. Each operation is one atomic step, so two concurrent first dials of a name are not modelled either. Within a sequential history, `RunKeepsProviders` states the one-provider-per-name invariant.
- Context cancellation is not modelled separately. `ConnectInfo` and the dial function take the context (dialer.go:197, :208), so cancelling it shows up as one of those two steps failing. `Handshake()` takes no context (dialer.go:223): a cancelled context does not stop it, and its failure is only its own outcome.
- The TLS configuration that `ConnectInfo` returns is not modelled. It only feeds `tls.Client` and the handshake, whose outcome is an input.
- `net.JoinHostPort` formatting is not modelled. The dial event records the host and the fixed port `"3307"` separately.
- The network and crypto are outcome inputs, not modelled: `net.Resolver`, `proxy.Dial`, TCP sockets, `tls.Client` and the handshake. A connection that is not a `*net.TCPConn` is the `isTcp = false` outcome.
- `instance.ParseConnName` and `cloudsql.NewInstance`, including the provider's `String()`, live in files that are not part of this model. They are a parameter and an outcome input.
- The SRV record's `Weight` and `Port`, and the lookup's canonical name, are dropped. The resolver never reads them.
- Dialer.Close: a second call panics in the source (closing a closed channel). The model requires that `Close` is called at most once.
- Dialer.Dial: counters are unbounded integers, so `int64` wrap-around of `openConns` is not modelled.
- SRV targets are modelled as sequences of Unicode scalar values. Go strings are arbitrary bytes, and a resolver may return a target that is not valid UTF-8. Such targets cannot be represented, and the character-wise order matches Go's byte-wise `<` only on valid UTF-8.
- Provider identity: `cloudsql.NewInstance` returns a fresh `*Instance` on every call, but the model takes the constructed provider as an input and does not require it to differ from providers cached under other names. `Close`'s promise is one close call per registry entry, for that entry's provider.

=== FILE: dialer.dfy ===
/** The sequential control logic of `Dialer`: the registry of per-instance
    metadata providers, the dial protocol and its failure policy, and the
    open-connection counters.

    Every call into a collaborator — `cloudsql.NewInstance`, the provider's
    `ConnectInfo`, the dial function, the keep-alive setters, the TLS
    handshake, a connection's own `Close` — is an input giving that call's
    outcome. Calls the Dialer makes on providers and sockets are recorded in
    an event log. Locks are gone: each operation is one atomic step, and the
    counter updates the source runs on goroutines happen immediately. */
module Dialer {
  import opened Wrappers

  /** `serverProxyPort`: the port the server-side proxy listens on. */
  const ServerProxyPort := "3307"

  /** `defaultTCPKeepAlive`, 30 seconds, in nanoseconds as Go's
      `time.Duration` counts them. */
  const DefaultTcpKeepAlive := 30 * 1_000_000_000

  /** The stages whose failure `Dial` wraps in a dial error. */
  datatype Stage = FailedToDial | FailedKeepAlive | FailedKeepAlivePeriod | HandshakeFailed

  /** The message `errtypes.NewDialError` is given for each stage. */
  function Message(s: Stage): string {
    match s
    case FailedToDial => "failed to dial"
    case FailedKeepAlive => "failed to set keep-alive"
    case FailedKeepAlivePeriod => "failed to set keep-alive period"
    case HandshakeFailed => "handshake failed"
  }

  /** Which of an instance's addresses to connect to. */
  datatype IpType = PublicIP | PrivateIP | OtherIP(kind: string)

  /** `dialCfg`: the per-call dial options. */
  datatype DialCfg = DialCfg(ipType: IpType, tcpKeepAlive: int)

  /** A `DialOption`: rewrites the configuration it is applied to. */
  type DialOption = DialCfg -> DialCfg

  /** A `*cloudsql.Instance`: an identity and what its `String()` returns. */
  datatype Provider = Provider(id: nat, name: string)

  /** A raw connection returned by the dial function. */
  datatype RawConn = RawConn(id: nat)

  /** What `ConnectInfo` hands back that the Dialer acts on: the address to
      dial. The TLS configuration it also returns only feeds the handshake,
      whose outcome is an input here. */
  datatype ConnectInfo = ConnectInfo(addr: string)

  /** Calls the Dialer makes on collaborators, in the order it makes them. */
  datatype Event =
    | ConnectInfoCalled(provider: Provider, ipType: IpType)
    | TcpDialed(host: string, port: string)
    | KeepAliveEnabled(raw: RawConn)
    | KeepAlivePeriodSet(raw: RawConn, period: int)
    | Refreshed(provider: Provider)         // ForceRefresh
    | SocketClosed(raw: RawConn)            // best-effort close after a failed handshake
    | ProviderClosed(provider: Provider)    // Close, from Dialer.Close

  /** The Dialer's state. `openConns` holds Go's `map[string]int64`, where a
      missing key reads as 0; `done` is true once the shutdown channel is
      closed. */
  datatype Dialer = Dialer(
    instances: map<string, Provider>,
    openConns: map<string, int>,
    defaultDialCfg: DialCfg,
    log: seq<Event>,
    done: bool)

  /** The outcomes of the collaborator calls one `Dial` may make. A field is
      only consulted when the dial gets that far. */
  datatype DialEnv = DialEnv(
    newInstance: Result<Provider, string>,       // cloudsql.NewInstance, on a cache miss
    connectInfo: Result<ConnectInfo, string>,    // Instance.ConnectInfo
    tcpDial: Result<RawConn, string>,            // the dial function
    isTcp: bool,                                 // the conn is a *net.TCPConn
    keepAliveErr: Option<string>,                // SetKeepAlive(true)
    keepAlivePeriodErr: Option<string>,          // SetKeepAlivePeriod
    handshakeErr: Option<string>)                // the TLS handshake

  /** Errors out of `Dial`: one passed through from a collaborator, or a
      dial error naming the stage (its message is `Message(stage)`), the
      provider's `String()` and the cause. */
  datatype DialErr =
    | Passthrough(cause: string)
    | DialError(stage: Stage, instance: string, cause: string)

  /** The connection `Dial` returns: the TLS connection over `raw`, whose
      close callback decrements the counter of `instance`. */
  datatype InstrumentedConn = InstrumentedConn(raw: RawConn, instance: string)

  datatype Got = Got(dialer: Dialer, provider: Result<Provider, string>)
  datatype Attempt = Attempt(events: seq<Event>, conn: Result<InstrumentedConn, DialErr>)
  datatype Dialed = Dialed(dialer: Dialer, conn: Result<InstrumentedConn, DialErr>)
  datatype Closed = Closed(dialer: Dialer, err: Option<string>)

  /** Go's read of `openConns[instance]`. */
  function OpenCount(d: Dialer, instance: string): int {
    if instance in d.openConns then d.openConns[instance] else 0
  }

  /** The events a step appended to the log. */
  function NewEvents(before: Dialer, after: Dialer): seq<Event>
    requires |before.log| <= |after.log|
  {
    after.log[|before.log|..]
  }

  /** The options applied one after another, first option first. */
  function ApplyOptions(cfg: DialCfg, opts: seq<DialOption>): DialCfg
    decreases |opts|
  {
    if |opts| == 0 then cfg else ApplyOptions(opts[0](cfg), opts[1..])
  }

  /** `NewDialer`, as far as the state goes: empty registry and counters,
      and a default configuration of public IP and a 30-second keep-alive,
      overridden by the constructor's dial options. */
  function NewDialer(dialOpts: seq<DialOption>): (d: Dialer)
    ensures d.instances == map[] && d.openConns == map[] && d.log == [] && !d.done
    ensures dialOpts == [] ==> d.defaultDialCfg == DialCfg(PublicIP, DefaultTcpKeepAlive)
  {
    Dialer(map[], map[], ApplyOptions(DialCfg(PublicIP, DefaultTcpKeepAlive), dialOpts), [], false)
  }

  /** `Dialer.instance`: get the cached provider, or construct and cache
      one. A failed construction caches nothing. */
  function GetOrCreate(d: Dialer, connName: string, newInstance: Result<Provider, string>): (r: Got)
    ensures connName in d.instances ==> r == Got(d, Success(d.instances[connName]))
    ensures connName !in d.instances && newInstance.Success? ==>
              && r.provider == newInstance
              && r.dialer == d.(instances := d.instances[connName := newInstance.value])
    ensures connName !in d.instances && newInstance.Failure? ==>
              r == Got(d, Failure(newInstance.error))
    ensures r.provider.Success? <==> connName in r.dialer.instances
    ensures r.provider.Success? ==> r.dialer.instances[connName] == r.provider.value
  {
    if connName in d.instances then Got(d, Success(d.instances[connName]))
    else
      match newInstance
      case Failure(e) => Got(d, Failure(e))
      case Success(p) => Got(d.(instances := d.instances[connName := p]), Success(p))
  }

  /** Once a provider is cached, every later call returns that same one,
      whatever construction would do. */
  lemma {:induction false} GetOrCreateStable(d: Dialer, connName: string,
                                             first: Result<Provider, string>,
                                             second: Result<Provider, string>)
    requires GetOrCreate(d, connName, first).provider.Success?
    ensures var g := GetOrCreate(d, connName, first);
      GetOrCreate(g.dialer, connName, second) == g
  {
    var g := GetOrCreate(d, connName, first);
    assert connName in g.dialer.instances;
  }

  /** After a failed construction the next call constructs again, and its
      provider is the one cached. */
  lemma {:induction false} GetOrCreateRetriesAfterFailure(d: Dialer, connName: string,
                                                          err: string, p: Provider)
    requires connName !in d.instances
    ensures var g := GetOrCreate(d, connName, Failure(err));
      && g.dialer == d
      && GetOrCreate(g.dialer, connName, Success(p)).provider == Success(p)
      && GetOrCreate(g.dialer, connName, Success(p)).dialer.instances == d.instances[connName := p]
  {
    var g := GetOrCreate(d, connName, Failure(err));
    assert g.dialer == d;
  }

  /** The dial errors that come with a speculative refresh. */
  predicate IsRefreshingFailure(c: Result<InstrumentedConn, DialErr>) {
    c.Failure? && c.error.DialError? && c.error.stage in {FailedToDial, HandshakeFailed}
  }

  /** Did the dial get through the TLS handshake's attempt, successfully or not? */
  predicate ReachedHandshake(c: Result<InstrumentedConn, DialErr>) {
    c.Success? || (c.error.DialError? && c.error.stage == HandshakeFailed)
  }

  /** Keep-alive is only configured on a `*net.TCPConn`; on one, both setters
      must succeed for the dial to go on. */
  predicate KeepAliveOk(env: DialEnv) {
    !env.isTcp || (env.keepAliveErr.None? && env.keepAlivePeriodErr.None?)
  }

  /** The connection opened, keep-alive went through, and the handshake failed. */
  predicate HandshakeFails(env: DialEnv) {
    env.tcpDial.Success? && KeepAliveOk(env) && env.handshakeErr.Some?
  }

  /** The providers asked to `ForceRefresh` in a call log, in order. */
  function Refreshes(events: seq<Event>): (ps: seq<Provider>)
    ensures |ps| <= |events|
    decreases |events|
  {
    if |events| == 0 then []
    else (if events[0].Refreshed? then [events[0].provider] else []) + Refreshes(events[1..])
  }

  /** Exactly the providers of the log's refresh calls are listed. */
  lemma {:induction false} RefreshesNames(events: seq<Event>, q: Provider)
    ensures q in Refreshes(events) <==> Refreshed(q) in events
    decreases |events|
  {
    if |events| > 0 {
      RefreshesNames(events[1..], q);
      assert events == [events[0]] + events[1..];
    }
  }

  lemma {:induction false} RefreshesConcat(a: seq<Event>, b: seq<Event>)
    ensures Refreshes(a + b) == Refreshes(a) + Refreshes(b)
    decreases |a|
  {
    if |a| == 0 {
      assert a + b == b;
    } else {
      assert (a + b)[0] == a[0] && (a + b)[1..] == a[1..] + b;
      RefreshesConcat(a[1..], b);
    }
  }

  /** A log without refresh calls refreshes nobody. */
  lemma {:induction false} NoRefreshes(events: seq<Event>)
    requires forall e :: e in events ==> !e.Refreshed?
    ensures Refreshes(events) == []
    decreases |events|
  {
    if |events| > 0 {
      assert events[0] in events;
      assert forall e :: e in events[1..] ==> e in events;
      NoRefreshes(events[1..]);
    }
  }

  /** The calls the securing phase makes on a connection `raw`: on a TCP
      connection it enables keep-alive and, if that worked, sets the period;
      after a failed handshake it refreshes `p` and then closes `raw`. */
  function SecureCalls(tcp: bool, enabled: bool, failedHandshake: bool, p: Provider, raw: RawConn, period: int): (events: seq<Event>)
    ensures Refreshes(events) == if failedHandshake then [p] else []
    ensures SocketClosed(raw) in events <==> failedHandshake
    ensures tcp ==> |events| > 0 && events[0] == KeepAliveEnabled(raw)
    ensures !tcp ==> forall e :: e in events ==> !e.KeepAliveEnabled? && !e.KeepAlivePeriodSet?
    ensures forall e :: e in events ==> e in {KeepAliveEnabled(raw), KeepAlivePeriodSet(raw, period), Refreshed(p), SocketClosed(raw)}
  {
    var ready := (if tcp then [KeepAliveEnabled(raw)] else []) + (if tcp && enabled then [KeepAlivePeriodSet(raw, period)] else []);
    var closing := if failedHandshake then [Refreshed(p), SocketClosed(raw)] else [];
    NoRefreshes(ready);
    RefreshesConcat(ready, closing);
    RefreshesConcat([Refreshed(p)], [SocketClosed(raw)]);
    NoRefreshes([SocketClosed(raw)]);
    NoRefreshes([]);
    assert failedHandshake ==> (ready + closing)[|ready| + 1] == SocketClosed(raw);
    ready + closing
  }

  /** The steps of `Dial` on an open connection `raw`: keep-alive for a TCP
      connection, then the TLS handshake. */
  function Secure(instance: string, cfg: DialCfg, p: Provider, raw: RawConn, env: DialEnv): (a: Attempt)
    // the connection is secured exactly when keep-alive and the handshake both succeed
    ensures a.conn.Success? <==> KeepAliveOk(env) && env.handshakeErr.None?
    // only a failed handshake refreshes, and then this provider exactly once
    ensures Refreshes(a.events) == if KeepAliveOk(env) && env.handshakeErr.Some? then [p] else []
    // a keep-alive failure is reported with its cause, and the connection is not closed
    ensures env.isTcp && env.keepAliveErr.Some? ==>
              && a.conn == Failure(DialError(FailedKeepAlive, p.name, env.keepAliveErr.value))
              && SocketClosed(raw) !in a.events
    ensures env.isTcp && env.keepAliveErr.None? && env.keepAlivePeriodErr.Some? ==>
              && a.conn == Failure(DialError(FailedKeepAlivePeriod, p.name, env.keepAlivePeriodErr.value))
              && SocketClosed(raw) !in a.events
    // a failed handshake closes the connection and fails the dial
    ensures KeepAliveOk(env) && env.handshakeErr.Some? ==>
              && a.conn == Failure(DialError(HandshakeFailed, p.name, env.handshakeErr.value))
              && SocketClosed(raw) in a.events
    ensures forall e :: e in a.events ==> !e.TcpDialed?
    ensures a.conn.Success? ==> a.conn.value == InstrumentedConn(raw, instance)
    // the connection is closed exactly when the handshake fails, so never when it is returned
    ensures SocketClosed(raw) in a.events <==> KeepAliveOk(env) && env.handshakeErr.Some?
    // keep-alive is enabled first on a TCP connection, and not configured at all on another kind
    ensures env.isTcp ==> |a.events| > 0 && a.events[0] == KeepAliveEnabled(raw)
    ensures !env.isTcp ==> forall e :: e in a.events ==> !e.KeepAliveEnabled? && !e.KeepAlivePeriodSet?
    // exactly the calls the code makes, in its order: the period is set only
    // after keep-alive was enabled, and a failed handshake refreshes before it closes
    ensures a.events ==
              (if env.isTcp then [KeepAliveEnabled(raw)] else [])
              + (if env.isTcp && env.keepAliveErr.None? then [KeepAlivePeriodSet(raw, cfg.tcpKeepAlive)] else [])
              + (if KeepAliveOk(env) && env.handshakeErr.Some? then [Refreshed(p), SocketClosed(raw)] else [])
    // so nothing else is touched: no provider is closed and no other socket
    ensures forall e :: e in a.events ==>
              e in {KeepAliveEnabled(raw), KeepAlivePeriodSet(raw, cfg.tcpKeepAlive), Refreshed(p), SocketClosed(raw)}
  {
    var events := SecureCalls(env.isTcp, env.keepAliveErr.None?, KeepAliveOk(env) && env.handshakeErr.Some?, p, raw, cfg.tcpKeepAlive);
    var conn :=
      if env.isTcp && env.keepAliveErr.Some? then Failure(DialError(FailedKeepAlive, p.name, env.keepAliveErr.value))
      else if env.isTcp && env.keepAlivePeriodErr.Some? then Failure(DialError(FailedKeepAlivePeriod, p.name, env.keepAlivePeriodErr.value))
      else if env.handshakeErr.Some? then Failure(DialError(HandshakeFailed, p.name, env.handshakeErr.value))
      else Success(InstrumentedConn(raw, instance));
    Attempt(events, conn)
  }

  /** The errors out of the securing phase: each is a dial error naming the
      provider, and the refreshing ones are exactly the handshake failures. */
  lemma SecureErrors(instance: string, cfg: DialCfg, p: Provider, raw: RawConn, env: DialEnv)
    ensures var a := Secure(instance, cfg, p, raw, env);
      && (a.conn.Failure? ==> a.conn.error.DialError? && a.conn.error.instance == p.name)
      && (IsRefreshingFailure(a.conn) <==> KeepAliveOk(env) && env.handshakeErr.Some?)
  {
  }

  /** The connection phase of `Dial`, after `ConnectInfo` succeeded: the
      calls it makes and the connection or error it ends with. */
  function Connect(instance: string, cfg: DialCfg, p: Provider, info: ConnectInfo,
                   env: DialEnv): (a: Attempt)
    // a TCP dial failure refreshes this provider and fails with "failed to dial"
    ensures env.tcpDial.Failure? ==>
              a == Attempt([TcpDialed(info.addr, ServerProxyPort), Refreshed(p)],
                           Failure(DialError(FailedToDial, p.name, env.tcpDial.error)))
    // on an open connection the rest is the securing phase, after the dial
    ensures env.tcpDial.Success? ==>
              var s := Secure(instance, cfg, p, env.tcpDial.value, env);
              a.conn == s.conn && a.events == [TcpDialed(info.addr, ServerProxyPort)] + s.events
    // only TCP dial and handshake failures refresh, and then this provider exactly once
    ensures Refreshes(a.events) == if env.tcpDial.Failure? || HandshakeFails(env) then [p] else []
    ensures IsRefreshingFailure(a.conn) <==> env.tcpDial.Failure? || HandshakeFails(env)
    // the dial goes to the address from ConnectInfo on the proxy port, once
    ensures |a.events| > 0 && a.events[0] == TcpDialed(info.addr, ServerProxyPort)
    ensures forall e :: e in a.events[1..] ==> !e.TcpDialed?
    // every stage error names the provider
    ensures a.conn.Failure? ==> a.conn.error.DialError? && a.conn.error.instance == p.name
    // a failed handshake closes the connection it was attempted on
    ensures a.conn.Failure? && a.conn.error.stage == HandshakeFailed ==>
              env.tcpDial.Success? && SocketClosed(env.tcpDial.value) in a.events
    ensures a.conn.Success? ==> env.tcpDial.Success? && a.conn.value == InstrumentedConn(env.tcpDial.value, instance)
  {
    var dialed := TcpDialed(info.addr, ServerProxyPort);
    match env.tcpDial
    case Failure(e) =>
      var events := [dialed, Refreshed(p)];
      RefreshesConcat([dialed], [Refreshed(p)]);
      NoRefreshes([dialed]);
      Attempt(events, Failure(DialError(FailedToDial, p.name, e)))
    case Success(raw) =>
      var s := Secure(instance, cfg, p, raw, env);
      var events := [dialed] + s.events;
      RefreshesConcat([dialed], s.events);
      NoRefreshes([dialed]);
      assert events[1..] == s.events;
      assert forall e :: e in s.events ==> e in events;
      Attempt(events, s.conn)
  }

  /** A TCP connection that reaches the handshake has had its keep-alive
      period set from the call's configuration. */
  lemma KeepAlivePeriodBeforeHandshake(instance: string, cfg: DialCfg, p: Provider, info: ConnectInfo,
                                       env: DialEnv)
    ensures var c := Connect(instance, cfg, p, info, env);
      ReachedHandshake(c.conn) && env.isTcp ==>
        env.tcpDial.Success? && KeepAlivePeriodSet(env.tcpDial.value, cfg.tcpKeepAlive) in c.events
  {
    if env.tcpDial.Success? && env.isTcp {
      var raw := env.tcpDial.value;
      var s := Secure(instance, cfg, p, raw, env);
      if KeepAliveOk(env) {
        assert s.events[1] == KeepAlivePeriodSet(raw, cfg.tcpKeepAlive);
        assert Connect(instance, cfg, p, info, env).events[2] == s.events[1];
      }
    }
  }

  /** What `Dial` does once it holds provider `p`: ask `ConnectInfo` with
      the call's IP type, and connect if that worked. */
  function ProviderPhase(instance: string, cfg: DialCfg, p: Provider, env: DialEnv): (a: Attempt)
    ensures |a.events| > 0 && a.events[0] == ConnectInfoCalled(p, cfg.ipType)
    // a ConnectInfo error is returned unchanged, and nothing follows it
    ensures env.connectInfo.Failure? ==>
              a == Attempt([ConnectInfoCalled(p, cfg.ipType)], Failure(Passthrough(env.connectInfo.error)))
    ensures env.connectInfo.Success? ==>
              var c := Connect(instance, cfg, p, env.connectInfo.value, env);
              a.conn == c.conn && a.events == [ConnectInfoCalled(p, cfg.ipType)] + c.events
  {
    var asked := ConnectInfoCalled(p, cfg.ipType);
    match env.connectInfo
    case Failure(e) => Attempt([asked], Failure(Passthrough(e)))
    case Success(info) =>
      var c := Connect(instance, cfg, p, info, env);
      Attempt([asked] + c.events, c.conn)
  }

  /** `Dialer.Dial`. */
  function Dial(d: Dialer, instance: string, opts: seq<DialOption>, env: DialEnv): (r: Dialed)
    // the options went into a copy: the defaults and shutdown state are as they were
    ensures r.dialer.defaultDialCfg == d.defaultDialCfg && r.dialer.done == d.done
    // the registry changes only by `instance` caching this name's provider
    ensures r.dialer.instances == GetOrCreate(d, instance, env.newInstance).dialer.instances
    // the log only grows
    ensures |d.log| <= |r.dialer.log| && r.dialer.log[..|d.log|] == d.log
    // only a successful dial counts a connection, and by exactly one
    ensures r.conn.Success? ==> r.dialer.openConns == d.openConns[instance := OpenCount(d, instance) + 1]
    ensures r.conn.Failure? ==> r.dialer.openConns == d.openConns
  {
    var cfg := ApplyOptions(d.defaultDialCfg, opts);
    var g := GetOrCreate(d, instance, env.newInstance);
    match g.provider
    case Failure(e) => Dialed(g.dialer, Failure(Passthrough(e)))
    case Success(p) =>
      var a := ProviderPhase(instance, cfg, p, env);
      var counts := if a.conn.Success?
        then g.dialer.openConns[instance := OpenCount(g.dialer, instance) + 1]
        else g.dialer.openConns;
      Dialed(g.dialer.(log := g.dialer.log + a.events, openConns := counts), a.conn)
  }

  /** The stages of `Dial`: a get-or-create error is returned unchanged with
      nothing else done; otherwise the outcome and the calls made are those
      of the provider phase, run with the options applied to a copy of the
      defaults. */
  lemma DialStages(d: Dialer, instance: string, opts: seq<DialOption>, env: DialEnv)
    ensures var r := Dial(d, instance, opts, env);
            var g := GetOrCreate(d, instance, env.newInstance);
      && (g.provider.Failure? ==> r == Dialed(d, Failure(Passthrough(env.newInstance.error))))
      && (g.provider.Success? ==>
            var a := ProviderPhase(instance, ApplyOptions(d.defaultDialCfg, opts), g.provider.value, env);
            r.conn == a.conn && NewEvents(d, r.dialer) == a.events)
  {
    var r := Dial(d, instance, opts, env);
    var g := GetOrCreate(d, instance, env.newInstance);
    if g.provider.Success? {
      var a := ProviderPhase(instance, ApplyOptions(d.defaultDialCfg, opts), g.provider.value, env);
      assert r.dialer.log == d.log + a.events;
    }
  }

  /** A `ConnectInfo` failure is returned unchanged: nothing is dialed or
      refreshed after it, and no counter moves. */
  lemma DialConnectInfoFailure(d: Dialer, instance: string, opts: seq<DialOption>, env: DialEnv)
    requires instance in d.instances || env.newInstance.Success?
    requires env.connectInfo.Failure?
    ensures var r := Dial(d, instance, opts, env);
      && r.conn == Failure(Passthrough(env.connectInfo.error))
      && instance in r.dialer.instances
      && NewEvents(d, r.dialer) ==
         [ConnectInfoCalled(r.dialer.instances[instance], ApplyOptions(d.defaultDialCfg, opts).ipType)]
      && r.dialer.openConns == d.openConns
  {
    DialStages(d, instance, opts, env);
  }

  /** `Dial` gets as far as dialing: it holds a provider and `ConnectInfo`
      answered. */
  predicate ReachesDial(d: Dialer, instance: string, env: DialEnv) {
    GetOrCreate(d, instance, env.newInstance).provider.Success? && env.connectInfo.Success?
  }

  /** `Dial` ends in a failure that refreshes: it held a provider and
      `ConnectInfo` answered, then the TCP dial or the handshake failed. */
  predicate RefreshingOutcome(d: Dialer, instance: string, env: DialEnv) {
    ReachesDial(d, instance, env) && (env.tcpDial.Failure? || HandshakeFails(env))
  }

  /** Which failures refresh the provider: a TCP dial failure and a handshake
      failure each refresh it exactly once; nothing else refreshes, in
      particular not a keep-alive failure. The refreshing errors, like every
      stage error, carry the provider's `String()`. */
  lemma DialRefreshPolicy(d: Dialer, instance: string, opts: seq<DialOption>, env: DialEnv)
    ensures var r := Dial(d, instance, opts, env);
      && (IsRefreshingFailure(r.conn) <==> RefreshingOutcome(d, instance, env))
      && (!RefreshingOutcome(d, instance, env) ==> Refreshes(NewEvents(d, r.dialer)) == [])
      && (RefreshingOutcome(d, instance, env) ==>
            && instance in r.dialer.instances
            && Refreshes(NewEvents(d, r.dialer)) == [r.dialer.instances[instance]]
            && r.conn.error.instance == r.dialer.instances[instance].name)
  {
    DialStages(d, instance, opts, env);
    var r := Dial(d, instance, opts, env);
    var g := GetOrCreate(d, instance, env.newInstance);
    if g.provider.Success? {
      var p := g.provider.value;
      var cfg := ApplyOptions(d.defaultDialCfg, opts);
      var a := ProviderPhase(instance, cfg, p, env);
      var head := ConnectInfoCalled(p, cfg.ipType);
      assert NewEvents(d, r.dialer) == [head] + a.events[1..] by {
        assert a.events == [head] + a.events[1..];
      }
      RefreshesConcat([head], a.events[1..]);
      NoRefreshes([head]);
      if env.connectInfo.Success? {
        assert a.events[1..] == Connect(instance, cfg, p, env.connectInfo.value, env).events;
      } else {
        NoRefreshes(a.events[1..]);
      }
    } else {
      NoRefreshes(NewEvents(d, r.dialer));
    }
  }

  /** Once `Dial` holds a provider and `ConnectInfo` answered, its outcome
      and the rest of its calls are those of the connection phase. */
  lemma DialConnects(d: Dialer, instance: string, opts: seq<DialOption>, env: DialEnv)
    requires ReachesDial(d, instance, env)
    ensures var r := Dial(d, instance, opts, env);
            var p := GetOrCreate(d, instance, env.newInstance).provider.value;
            var cfg := ApplyOptions(d.defaultDialCfg, opts);
            var c := Connect(instance, cfg, p, env.connectInfo.value, env);
      r.conn == c.conn && NewEvents(d, r.dialer) == [ConnectInfoCalled(p, cfg.ipType)] + c.events
  {
    DialStages(d, instance, opts, env);
  }

  /** The error a failing TCP dial or handshake returns, naming the
      provider: "failed to dial" for the dial, and "handshake failed", after
      closing the connection, for the handshake. */
  lemma DialFailureErrors(d: Dialer, instance: string, opts: seq<DialOption>, env: DialEnv)
    requires ReachesDial(d, instance, env)
    ensures var r := Dial(d, instance, opts, env);
            var p := GetOrCreate(d, instance, env.newInstance).provider.value;
      && (env.tcpDial.Failure? ==>
            r.conn == Failure(DialError(FailedToDial, p.name, env.tcpDial.error)))
      && (HandshakeFails(env) ==>
            && r.conn == Failure(DialError(HandshakeFailed, p.name, env.handshakeErr.value))
            && SocketClosed(env.tcpDial.value) in NewEvents(d, r.dialer))
  {
    DialConnects(d, instance, opts, env);
  }

  /** A keep-alive failure returns its own message and cause, naming the
      provider, and the connection is not closed. */
  lemma DialKeepAliveErrors(d: Dialer, instance: string, opts: seq<DialOption>, env: DialEnv)
    requires ReachesDial(d, instance, env) && env.tcpDial.Success? && !KeepAliveOk(env)
    ensures var r := Dial(d, instance, opts, env);
            var p := GetOrCreate(d, instance, env.newInstance).provider.value;
      && (env.keepAliveErr.Some? ==>
            r.conn == Failure(DialError(FailedKeepAlive, p.name, env.keepAliveErr.value)))
      && (env.keepAliveErr.None? ==>
            r.conn == Failure(DialError(FailedKeepAlivePeriod, p.name, env.keepAlivePeriodErr.value)))
      && SocketClosed(env.tcpDial.value) !in NewEvents(d, r.dialer)
  {
    var p := GetOrCreate(d, instance, env.newInstance).provider.value;
    var cfg := ApplyOptions(d.defaultDialCfg, opts);
    var c := Connect(instance, cfg, p, env.connectInfo.value, env);
    DialConnects(d, instance, opts, env);
    ConnectKeepAliveErrors(instance, cfg, p, env.connectInfo.value, env);
    assert forall e :: e in [ConnectInfoCalled(p, cfg.ipType)] + c.events ==> e == ConnectInfoCalled(p, cfg.ipType) || e in c.events;
  }

  lemma ConnectKeepAliveErrors(instance: string, cfg: DialCfg, p: Provider, info: ConnectInfo, env: DialEnv)
    requires env.tcpDial.Success? && !KeepAliveOk(env)
    ensures var c := Connect(instance, cfg, p, info, env);
      && (env.keepAliveErr.Some? ==>
            c.conn == Failure(DialError(FailedKeepAlive, p.name, env.keepAliveErr.value)))
      && (env.keepAliveErr.None? ==>
            c.conn == Failure(DialError(FailedKeepAlivePeriod, p.name, env.keepAlivePeriodErr.value)))
      && SocketClosed(env.tcpDial.value) !in c.events
  {
    var s := Secure(instance, cfg, p, env.tcpDial.value, env);
    assert forall e :: e in [TcpDialed(info.addr, ServerProxyPort)] + s.events ==> e.TcpDialed? || e in s.events;
  }

  /** A dial succeeds exactly when every stage does: a provider, its
      `ConnectInfo`, the TCP dial, keep-alive on a TCP connection, and the
      handshake. */
  lemma DialSucceedsIff(d: Dialer, instance: string, opts: seq<DialOption>, env: DialEnv)
    ensures Dial(d, instance, opts, env).conn.Success? <==>
              && ReachesDial(d, instance, env)
              && env.tcpDial.Success? && KeepAliveOk(env) && env.handshakeErr.None?
  {
    DialStages(d, instance, opts, env);
  }

  /** A successful dial returns the connection the TCP dial produced,
      labelled with the instance it was asked for. */
  lemma DialReturnsDialedConn(d: Dialer, instance: string, opts: seq<DialOption>, env: DialEnv)
    requires Dial(d, instance, opts, env).conn.Success?
    ensures env.tcpDial.Success?
    ensures Dial(d, instance, opts, env).conn.value == InstrumentedConn(env.tcpDial.value, instance)
  {
    DialSucceedsIff(d, instance, opts, env);
    DialConnects(d, instance, opts, env);
  }

  /** A successful dial never closes the connection it returns, and on a
      TCP connection it has enabled keep-alive. */
  lemma DialSuccessLeavesConnOpen(d: Dialer, instance: string, opts: seq<DialOption>, env: DialEnv)
    requires Dial(d, instance, opts, env).conn.Success?
    ensures var r := Dial(d, instance, opts, env);
      && SocketClosed(r.conn.value.raw) !in NewEvents(d, r.dialer)
      && (env.isTcp ==> KeepAliveEnabled(r.conn.value.raw) in NewEvents(d, r.dialer))
  {
    DialSucceedsIff(d, instance, opts, env);
    var p := GetOrCreate(d, instance, env.newInstance).provider.value;
    var cfg := ApplyOptions(d.defaultDialCfg, opts);
    var c := Connect(instance, cfg, p, env.connectInfo.value, env);
    DialConnects(d, instance, opts, env);
    ConnectSuccessLeavesConnOpen(instance, cfg, p, env.connectInfo.value, env);
    assert forall e :: e in [ConnectInfoCalled(p, cfg.ipType)] + c.events ==> e.ConnectInfoCalled? || e in c.events;
  }

  lemma ConnectSuccessLeavesConnOpen(instance: string, cfg: DialCfg, p: Provider, info: ConnectInfo, env: DialEnv)
    requires env.tcpDial.Success? && KeepAliveOk(env) && env.handshakeErr.None?
    ensures var c := Connect(instance, cfg, p, info, env);
      && c.conn == Success(InstrumentedConn(env.tcpDial.value, instance))
      && SocketClosed(env.tcpDial.value) !in c.events
      && (env.isTcp ==> KeepAliveEnabled(env.tcpDial.value) in c.events)
  {
    var s := Secure(instance, cfg, p, env.tcpDial.value, env);
    var events := [TcpDialed(info.addr, ServerProxyPort)] + s.events;
    assert forall e :: e in events ==> e.TcpDialed? || e in s.events;
    if env.isTcp {
      assert events[1] == s.events[0];
    }
  }

  /** `instrumentedConn.Close`: the underlying close's error is returned
      unchanged; only when there is none does the callback decrement the
      connection's counter. */
  function CloseConn(d: Dialer, c: InstrumentedConn, underlyingErr: Option<string>): (r: Closed)
    ensures r.err == underlyingErr
    ensures underlyingErr.Some? ==> r.dialer == d
    ensures underlyingErr.None? ==>
              r.dialer == d.(openConns := d.openConns[c.instance := OpenCount(d, c.instance) - 1])
  {
    match underlyingErr
    case Some(e) => Closed(d, Some(e))
    case None => Closed(d.(openConns := d.openConns[c.instance := OpenCount(d, c.instance) - 1]), None)
  }

  /** A successful dial followed by a successful close of its connection
      leaves every counter where it was. */
  lemma DialThenCloseRestoresCounts(d: Dialer, instance: string, opts: seq<DialOption>, env: DialEnv)
    requires Dial(d, instance, opts, env).conn.Success?
    ensures var r := Dial(d, instance, opts, env);
      forall k :: OpenCount(CloseConn(r.dialer, r.conn.value, None).dialer, k) == OpenCount(d, k)
  {
  }

  /** One operation of a Dialer's life, with its collaborators' outcomes. */
  datatype Op =
    | DialOp(instance: string, opts: seq<DialOption>, env: DialEnv)
    | CloseOp(conn: InstrumentedConn, underlyingErr: Option<string>)

  /** What an operation did to the counters: a connection was counted for
      an instance, released from it, or neither. */
  datatype Effect = Opened(instance: string) | Released(instance: string) | NoChange

  datatype Stepped = Stepped(dialer: Dialer, effect: Effect)
  datatype Ran = Ran(dialer: Dialer, effects: seq<Effect>)

  /** One operation applied: a dial reports `Opened` exactly when it
      succeeded, a close reports `Released` exactly when the underlying close
      did, and every other outcome reports `NoChange`. */
  function Step(d: Dialer, op: Op): (s: Stepped)
    ensures op.DialOp? ==>
              var r := Dial(d, op.instance, op.opts, op.env);
              s.dialer == r.dialer && (s.effect == Opened(op.instance) <==> r.conn.Success?)
    ensures op.CloseOp? ==>
              && s.dialer == CloseConn(d, op.conn, op.underlyingErr).dialer
              && (s.effect == Released(op.conn.instance) <==> op.underlyingErr.None?)
    ensures s.effect.Opened? ==> op.DialOp? && s.effect.instance == op.instance
    ensures s.effect.Released? ==> op.CloseOp? && s.effect.instance == op.conn.instance
    ensures forall k :: OpenCount(s.dialer, k) ==
              OpenCount(d, k) + (if s.effect == Opened(k) then 1 else 0)
                              - (if s.effect == Released(k) then 1 else 0)
    ensures forall k :: k in d.instances ==> k in s.dialer.instances && s.dialer.instances[k] == d.instances[k]
    ensures s.dialer.done == d.done && s.dialer.defaultDialCfg == d.defaultDialCfg
  {
    match op
    case DialOp(instance, opts, env) =>
      var r := Dial(d, instance, opts, env);
      Stepped(r.dialer, if r.conn.Success? then Opened(instance) else NoChange)
    case CloseOp(conn, err) =>
      var r := CloseConn(d, conn, err);
      Stepped(r.dialer, if r.err.None? then Released(conn.instance) else NoChange)
  }

  /** The operations applied in order, with the effect each one reported.
      An `Opened` effect comes from a dial of that instance, a `Released`
      one from a close of that instance's connection; the defaults and the
      shutdown state never change. */
  function Run(d: Dialer, ops: seq<Op>): (r: Ran)
    ensures |r.effects| == |ops|
    ensures forall i :: 0 <= i < |ops| && r.effects[i].Opened? ==>
              ops[i].DialOp? && r.effects[i].instance == ops[i].instance
    ensures forall i :: 0 <= i < |ops| && r.effects[i].Released? ==>
              ops[i].CloseOp? && r.effects[i].instance == ops[i].conn.instance
    ensures r.dialer.done == d.done && r.dialer.defaultDialCfg == d.defaultDialCfg
    decreases |ops|
  {
    if |ops| == 0 then Ran(d, [])
    else
      var s := Step(d, ops[0]);
      var rest := Run(s.dialer, ops[1..]);
      assert forall i :: 0 < i < |ops| ==> ([s.effect] + rest.effects)[i] == rest.effects[i - 1] && ops[i] == ops[1..][i - 1];
      Ran(rest.dialer, [s.effect] + rest.effects)
  }

  /** Over any sequence of dials and closes, each instance's counter moves by
      the number of successful dials of it minus the number of successful
      closes of its connections. */
  lemma {:induction false} RunCountsBalance(d: Dialer, ops: seq<Op>, k: string)
    ensures var r := Run(d, ops);
      OpenCount(r.dialer, k) == OpenCount(d, k) + multiset(r.effects)[Opened(k)]
                                                - multiset(r.effects)[Released(k)]
    decreases |ops|
  {
    if |ops| > 0 {
      var s := Step(d, ops[0]);
      RunCountsBalance(s.dialer, ops[1..], k);
      var rest := Run(s.dialer, ops[1..]);
      assert multiset([s.effect] + rest.effects) == multiset{s.effect} + multiset(rest.effects);
    }
  }

  /** So a run that closes successfully as many connections of an instance
      as it opened leaves that instance's counter where it started. */
  lemma RunPairedRestoresCount(d: Dialer, ops: seq<Op>, k: string)
    ensures var r := Run(d, ops);
      multiset(r.effects)[Opened(k)] == multiset(r.effects)[Released(k)] ==> OpenCount(r.dialer, k) == OpenCount(d, k)
  {
    RunCountsBalance(d, ops, k);
  }

  /** A cached provider is never replaced or dropped, so an identifier has at
      most one provider for the Dialer's lifetime. */
  lemma {:induction false} RunKeepsProviders(d: Dialer, ops: seq<Op>)
    ensures var r := Run(d, ops);
      forall k :: k in d.instances ==> k in r.dialer.instances && r.dialer.instances[k] == d.instances[k]
    decreases |ops|
  {
    if |ops| > 0 {
      RunKeepsProviders(Step(d, ops[0]).dialer, ops[1..]);
    }
  }

  /** How many connections in `s` belong to instance `k`. */
  function CountOf(s: seq<InstrumentedConn>, k: string): (n: nat)
    ensures n <= |s|
  {
    if |s| == 0 then 0 else (if s[0].instance == k then 1 else 0) + CountOf(s[1..], k)
  }

  /** `s` without its first copy of `c`. */
  function Remove(s: seq<InstrumentedConn>, c: InstrumentedConn): (r: seq<InstrumentedConn>)
    ensures multiset(r) == multiset(s) - multiset{c}
  {
    if |s| == 0 then []
    else if s[0] == c then
      assert s == [s[0]] + s[1..];
      s[1..]
    else
      assert s == [s[0]] + s[1..];
      [s[0]] + Remove(s[1..], c)
  }

  /** Removing a connection of instance `k` lowers its count by one; any
      other removal leaves it alone. */
  lemma {:induction false} CountRemove(s: seq<InstrumentedConn>, c: InstrumentedConn, k: string)
    ensures c in s ==> CountOf(Remove(s, c), k) + (if c.instance == k then 1 else 0) == CountOf(s, k)
    decreases |s|
  {
    if |s| > 0 && c in s && s[0] != c {
      assert c in s[1..];
      CountRemove(s[1..], c, k);
      assert ([s[0]] + Remove(s[1..], c))[1..] == Remove(s[1..], c);
    }
  }

  /** The connections open after one operation, given those open before:
      a successful dial adds the connection it returned, a successful close
      removes one copy of the connection it closed. */
  function Track(d: Dialer, op: Op, live: seq<InstrumentedConn>): seq<InstrumentedConn> {
    match op
    case DialOp(instance, opts, env) =>
      var r := Dial(d, instance, opts, env);
      if r.conn.Success? then [r.conn.value] + live else live
    case CloseOp(conn, err) => if err.None? then Remove(live, conn) else live
  }

  /** The connections left open after a history, newest first. */
  function LiveAfter(d: Dialer, ops: seq<Op>, live: seq<InstrumentedConn>): seq<InstrumentedConn>
    decreases |ops|
  {
    if |ops| == 0 then live
    else LiveAfter(Step(d, ops[0]).dialer, ops[1..], Track(d, ops[0], live))
  }

  /** A history whose every successful close is of a connection that a
      dial returned and that has not been closed successfully since. */
  ghost predicate ClosesOnlyLive(d: Dialer, ops: seq<Op>, live: seq<InstrumentedConn>)
    decreases |ops|
  {
    |ops| > 0 ==>
      && (ops[0].CloseOp? && ops[0].underlyingErr.None? ==> ops[0].conn in live)
      && ClosesOnlyLive(Step(d, ops[0]).dialer, ops[1..], Track(d, ops[0], live))
  }

  /** One operation moves an instance's counter exactly as it moves the
      number of that instance's open connections, provided a successful
      close is of an open connection. */
  lemma StepTracksLive(d: Dialer, op: Op, live: seq<InstrumentedConn>, k: string)
    ensures (op.CloseOp? && op.underlyingErr.None? ==> op.conn in live) ==>
      OpenCount(Step(d, op).dialer, k) - CountOf(Track(d, op, live), k) == OpenCount(d, k) - CountOf(live, k)
  {
    match op
    case DialOp(instance, opts, env) =>
      DialTracksLive(d, instance, opts, env, live, k);
    case CloseOp(conn, err) =>
      CountRemove(live, conn, k);
  }

  /** The dial case: a successful dial adds one to its instance's counter
      and one connection of that instance to the open ones. */
  lemma DialTracksLive(d: Dialer, instance: string, opts: seq<DialOption>, env: DialEnv, live: seq<InstrumentedConn>, k: string)
    ensures var r := Dial(d, instance, opts, env);
      OpenCount(r.dialer, k) - CountOf(if r.conn.Success? then [r.conn.value] + live else live, k)
        == OpenCount(d, k) - CountOf(live, k)
  {
    var r := Dial(d, instance, opts, env);
    if r.conn.Success? {
      DialReturnsDialedConn(d, instance, opts, env);
      assert ([r.conn.value] + live)[1..] == live;
    }
  }

  /** Over a history that closes only open connections, each counter stays
      its starting value plus the change in that instance's open
      connections. */
  lemma {:induction false} RunTracksLive(d: Dialer, ops: seq<Op>, live: seq<InstrumentedConn>, k: string)
    ensures ClosesOnlyLive(d, ops, live) ==>
      OpenCount(Run(d, ops).dialer, k) - CountOf(LiveAfter(d, ops, live), k) == OpenCount(d, k) - CountOf(live, k)
    decreases |ops|
  {
    if |ops| > 0 && ClosesOnlyLive(d, ops, live) {
      StepTracksLive(d, ops[0], live, k);
      RunTracksLive(Step(d, ops[0]).dialer, ops[1..], Track(d, ops[0], live), k);
    }
  }

  /** From a new Dialer, a history that closes only connections it dialed
      and has not closed yet leaves every counter equal to the number of
      that instance's connections still open, so never negative. */
  lemma ClosingOnlyLiveKeepsCountsNonNegative(dialOpts: seq<DialOption>, ops: seq<Op>)
    ensures var d := NewDialer(dialOpts);
      ClosesOnlyLive(d, ops, []) ==>
        forall k :: OpenCount(Run(d, ops).dialer, k) == CountOf(LiveAfter(d, ops, []), k) >= 0
  {
    var d := NewDialer(dialOpts);
    forall k
      ensures ClosesOnlyLive(d, ops, []) ==> OpenCount(Run(d, ops).dialer, k) == CountOf(LiveAfter(d, ops, []), k)
    {
      RunTracksLive(d, ops, [], k);
    }
  }

  /** Without that discipline the counter is not protected: closing a
      connection no dial returned drives a new Dialer's counter to -1. */
  lemma UnmatchedCloseGoesNegative(dialOpts: seq<DialOption>, c: InstrumentedConn)
    ensures OpenCount(Run(NewDialer(dialOpts), [CloseOp(c, None)]).dialer, c.instance) == -1
  {
    var d := NewDialer(dialOpts);
    assert Run(d, [CloseOp(c, None)]).dialer == Run(Step(d, CloseOp(c, None)).dialer, []).dialer;
  }

  /** `Dialer.Close`: close every cached provider, once each, in whatever
      order the map is walked, then signal `done`. A second call would
      panic on the closed channel, so it is not allowed. */
  method Close(d: Dialer) returns (r: Dialer)
    requires !d.done
    ensures r.done
    ensures r.instances == d.instances && r.openConns == d.openConns
    ensures r.defaultDialCfg == d.defaultDialCfg
    ensures |d.log| <= |r.log| && r.log[..|d.log|] == d.log
    ensures forall k :: k in d.instances ==> ProviderClosed(d.instances[k]) in NewEvents(d, r)
    ensures forall e :: e in NewEvents(d, r) ==> e.ProviderClosed? && e.provider in d.instances.Values
    ensures |NewEvents(d, r)| == |d.instances|
  {
    var remaining := d.instances.Keys;
    var closed: seq<Event> := [];
    while remaining != {}
      invariant remaining <= d.instances.Keys
      invariant forall k :: k in d.instances && k !in remaining ==> ProviderClosed(d.instances[k]) in closed
      invariant forall e :: e in closed ==> e.ProviderClosed? && e.provider in d.instances.Values
      invariant |closed| + |remaining| == |d.instances|
      decreases remaining
    {
      var k :| k in remaining;
      closed := closed + [ProviderClosed(d.instances[k])];
      remaining := remaining - {k};
    }
    r := d.(log := d.log + closed, done := true);
    assert NewEvents(d, r) == closed;
  }
}

=== FILE: order.dfy ===
/** The order in which the resolver considers SRV records: ascending priority,
    then ascending target. Go compares strings byte-wise on their UTF-8
    encoding; for Unicode scalar values that is the same as comparing code
    points, so targets are compared character by character here. */
module SrvOrder {

  /** Go's `uint16`, the width of an SRV record's priority. */
  newtype uint16 = x: int | 0 <= x < 0x1_0000

  /** The two fields of `net.SRV` that the resolver reads. */
  datatype SRV = SRV(priority: uint16, target: string)

  /** Go's `a < b` on strings: strict lexicographic order, a proper prefix
      coming first. */
  predicate StrLess(a: string, b: string)
    decreases |a|
  {
    if |a| == 0 then |b| > 0
    else if |b| == 0 then false
    else if a[0] != b[0] then a[0] < b[0]
    else StrLess(a[1..], b[1..])
  }

  lemma {:induction false} StrLessIrreflexive(a: string)
    ensures !StrLess(a, a)
    decreases |a|
  {
    if |a| > 0 {
      StrLessIrreflexive(a[1..]);
    }
  }

  lemma {:induction false} StrLessTransitive(a: string, b: string, c: string)
    requires StrLess(a, b) && StrLess(b, c)
    ensures StrLess(a, c)
    decreases |a|
  {
    if |a| > 0 && |b| > 0 && |c| > 0 && a[0] == b[0] && b[0] == c[0] {
      StrLessTransitive(a[1..], b[1..], c[1..]);
    }
  }

  /** Any two different strings are ordered one way or the other. */
  lemma {:induction false} StrLessTotal(a: string, b: string)
    ensures a == b || StrLess(a, b) || StrLess(b, a)
    decreases |a|
  {
    if |a| > 0 && |b| > 0 && a[0] == b[0] {
      StrLessTotal(a[1..], b[1..]);
      if a[1..] == b[1..] {
        assert a == [a[0]] + a[1..] && b == [b[0]] + b[1..];
      }
    }
  }

  lemma {:induction false} StrLessAsymmetric(a: string, b: string)
    requires StrLess(a, b)
    ensures !StrLess(b, a)
  {
    if StrLess(b, a) {
      StrLessTransitive(a, b, a);
      StrLessIrreflexive(a);
    }
  }

  /** The comparator handed to `sort.Slice`: lower priority first, and for
      equal priorities the alphabetically smaller target first. */
  predicate RecordLess(x: SRV, y: SRV) {
    if x.priority == y.priority then StrLess(x.target, y.target)
    else x.priority < y.priority
  }

  predicate RecordLessEq(x: SRV, y: SRV) {
    x == y || RecordLess(x, y)
  }

  /** `RecordLessEq` is a total order on records: reflexive by definition,
      and total, antisymmetric and transitive as proved here. */
  lemma RecordOrderTotal(x: SRV, y: SRV)
    ensures RecordLessEq(x, y) || RecordLessEq(y, x)
  {
    StrLessTotal(x.target, y.target);
  }

  lemma RecordOrderAntisymmetric(x: SRV, y: SRV)
    requires RecordLessEq(x, y) && RecordLessEq(y, x)
    ensures x == y
  {
    if x != y && x.priority == y.priority {
      StrLessAsymmetric(x.target, y.target);
    }
  }

  lemma RecordOrderTransitive(x: SRV, y: SRV, z: SRV)
    requires RecordLessEq(x, y) && RecordLessEq(y, z)
    ensures RecordLessEq(x, z)
  {
    if x != y && y != z && x.priority == y.priority && y.priority == z.priority {
      StrLessTransitive(x.target, y.target, z.target);
    }
  }

  /** Every earlier record sorts no later than every later one. */
  ghost predicate Sorted(s: seq<SRV>) {
    forall i, j :: 0 <= i < j < |s| ==> RecordLessEq(s[i], s[j])
  }

  /** Putting in front of a sorted sequence a record that sorts no later
      than any of its elements keeps it sorted. */
  lemma PrependSorted(h: SRV, s: seq<SRV>)
    requires Sorted(s)
    requires forall e :: e in s ==> RecordLessEq(h, e)
    ensures Sorted([h] + s)
  {
    var r := [h] + s;
    forall i, j | 0 <= i < j < |r| ensures RecordLessEq(r[i], r[j]) {
      if i > 0 {
        assert r[i] == s[i - 1] && r[j] == s[j - 1];
      } else {
        assert r[j] in s;
      }
    }
  }

  /** Inserts `x` into a sorted sequence after every record that sorts
      strictly before it. */
  function Insert(x: SRV, s: seq<SRV>): (r: seq<SRV>)
    requires Sorted(s)
    ensures Sorted(r)
    ensures multiset(r) == multiset(s) + multiset{x}
    decreases |s|
  {
    if |s| == 0 then [x]
    else if RecordLessEq(x, s[0]) then
      InsertFrontSorted(x, s);
      [x] + s
    else
      var rest := Insert(x, s[1..]);
      InsertBehindSorted(x, s, rest);
      assert s == [s[0]] + s[1..];
      [s[0]] + rest
  }

  lemma InsertFrontSorted(x: SRV, s: seq<SRV>)
    requires Sorted(s) && |s| > 0 && RecordLessEq(x, s[0])
    ensures Sorted([x] + s)
  {
    forall e | e in s ensures RecordLessEq(x, e) {
      var j :| 0 <= j < |s| && s[j] == e;
      RecordOrderTransitive(x, s[0], e);
    }
    PrependSorted(x, s);
  }

  lemma InsertBehindSorted(x: SRV, s: seq<SRV>, rest: seq<SRV>)
    requires Sorted(s) && |s| > 0 && !RecordLessEq(x, s[0])
    requires Sorted(rest) && multiset(rest) == multiset(s[1..]) + multiset{x}
    ensures Sorted([s[0]] + rest)
  {
    RecordOrderTotal(x, s[0]);
    forall e | e in rest ensures RecordLessEq(s[0], e) {
      assert e in multiset(rest);
      if e != x {
        assert e in multiset(s[1..]);
        var j :| 0 <= j < |s[1..]| && s[1..][j] == e;
        assert s[j + 1] == e;
      }
    }
    PrependSorted(s[0], rest);
  }

  /** `sort.Slice(records, less)` with the resolver's comparator: the result
      is in ascending order and holds exactly the records it was given. */
  function SortRecords(records: seq<SRV>): (s: seq<SRV>)
    ensures Sorted(s)
    ensures multiset(s) == multiset(records)
    decreases |records|
  {
    if |records| == 0 then []
    else
      assert records == [records[0]] + records[1..];
      Insert(records[0], SortRecords(records[1..]))
  }

  /** The head of a sorted sequence sorts no later than any of its records. */
  lemma SortedHeadFirst(s: seq<SRV>, x: SRV)
    requires Sorted(s) && x in s
    ensures RecordLessEq(s[0], x)
  {
    var j :| 0 <= j < |s| && s[j] == x;
    if j > 0 {
      assert RecordLessEq(s[0], s[j]);
    }
  }

  /** Every record of a sorted sequence sorts no later than its last one. */
  lemma SortedLastIsMax(s: seq<SRV>, x: SRV)
    requires Sorted(s) && x in s
    ensures RecordLessEq(x, s[|s| - 1])
  {
    var j :| 0 <= j < |s| && s[j] == x;
    if j < |s| - 1 {
      assert RecordLessEq(s[j], s[|s| - 1]);
    }
  }

  lemma SortedTail(s: seq<SRV>)
    requires Sorted(s) && |s| > 0
    ensures Sorted(s[1..])
  {
    forall i, j | 0 <= i < j < |s[1..]| ensures RecordLessEq(s[1..][i], s[1..][j]) {
      assert s[1..][i] == s[i + 1] && s[1..][j] == s[j + 1];
    }
  }

  lemma MultisetTail(s: seq<SRV>)
    requires |s| > 0
    ensures multiset(s[1..]) == multiset(s) - multiset{s[0]}
  {
    assert s == [s[0]] + s[1..];
  }

  /** Two sorted sequences holding the same records start with the same one. */
  lemma SortedSameHead(a: seq<SRV>, b: seq<SRV>)
    requires Sorted(a) && Sorted(b)
    requires multiset(a) == multiset(b) && |a| > 0
    ensures |b| > 0 && a[0] == b[0]
  {
    assert a[0] in multiset(b);
    assert b[0] in multiset(a);
    SortedHeadFirst(b, a[0]);
    SortedHeadFirst(a, b[0]);
    RecordOrderAntisymmetric(a[0], b[0]);
  }

  /** There is only one sorted arrangement of a multiset of records, so an
      unstable sort cannot make the result depend on the input order. */
  lemma {:induction false} SortedUnique(a: seq<SRV>, b: seq<SRV>)
    requires Sorted(a) && Sorted(b)
    requires multiset(a) == multiset(b)
    ensures a == b
    decreases |a|
  {
    if |a| == 0 {
      assert |multiset(b)| == 0;
    } else {
      SortedSameHead(a, b);
      MultisetTail(a);
      MultisetTail(b);
      SortedTail(a);
      SortedTail(b);
      SortedUnique(a[1..], b[1..]);
      assert a == [a[0]] + a[1..] == [b[0]] + b[1..] == b;
    }
  }

  /** Sorting neither adds nor loses a record. */
  lemma {:induction false} SortRecordsSameMembers(records: seq<SRV>)
    ensures forall k :: k in records <==> k in SortRecords(records)
  {
    var sorted := SortRecords(records);
    forall k ensures k in records <==> k in sorted {
      assert k in records <==> k in multiset(records);
      assert k in sorted <==> k in multiset(sorted);
    }
  }

  /** Sorting depends only on which records arrived, not on their order. */
  lemma {:induction false} SortRecordsOrderIndependent(a: seq<SRV>, b: seq<SRV>)
    requires multiset(a) == multiset(b)
    ensures SortRecords(a) == SortRecords(b)
  {
    SortedUnique(SortRecords(a), SortRecords(b));
  }
}

=== FILE: resolver.dfy ===
/** `DNSInstanceConnectionNameResolver`: turns either a canonical
    `project:region:instance` name or a DNS domain name carrying SRV records
    into an instance connection name.

    The SRV lookup is an input (`SrvAnswer`, what `LookupSRV(ctx, "", "",
    domain)` returned) and `instance.ParseConnName` is the parameter `parse`,
    whose grammar is not part of this model. */
module Resolver {
  import opened Wrappers
  import opened SrvOrder

  /** `instance.ConnName`; its zero value is `ZeroConnName`. */
  datatype ConnName = ConnName(project: string, region: string, name: string)

  const ZeroConnName := ConnName("", "", "")

  /** `instance.ParseConnName`: a name, or the message of its parse error. */
  type Parser = string -> Result<ConnName, string>

  /** What the SRV lookup returned: the records and a possibly non-nil error,
      both at once when the lookup failed only partly. */
  datatype SrvAnswer = SrvAnswer(records: seq<SRV>, err: Option<string>)

  /** The three errors `queryDNS` can produce, each naming the domain. */
  datatype ResolveError =
    | LookupFailed(domain: string, cause: string)  // "unable to resolve SRV record for %q: %v"
    | ParseFailed(domain: string, cause: string)   // "unable to parse SRV for %q: %v"
    | NoRecords(domain: string)                    // "no valid SRV records found for %q"

  /** Go's `(instance.ConnName, error)` result pair. */
  datatype Reply = Reply(name: ConnName, err: Option<ResolveError>)

  /** `strings.TrimRight(s, ".")`: the longest prefix of `s` that does not
      end in a dot and is followed only by dots. */
  function TrimRightDots(s: string): (t: string)
    ensures |t| <= |s| && t == s[..|t|]
    ensures |t| == 0 || t[|t| - 1] != '.'
    ensures forall i :: |t| <= i < |s| ==> s[i] == '.'
    decreases |s|
  {
    if |s| > 0 && s[|s| - 1] == '.' then TrimRightDots(s[..|s| - 1]) else s
  }

  /** Every trailing dot goes, however many there are: a target with any
      number of dots appended trims to the same name as without them. */
  lemma {:induction false} TrimRightDotsIgnoresTrailingDots(s: string, dots: string)
    requires forall i :: 0 <= i < |dots| ==> dots[i] == '.'
    ensures TrimRightDots(s + dots) == TrimRightDots(s)
    decreases |dots|
  {
    if |dots| > 0 {
      var shorter := dots[..|dots| - 1];
      assert (s + dots)[..|s + dots| - 1] == s + shorter;
      TrimRightDotsIgnoresTrailingDots(s, shorter);
    } else {
      assert s + dots == s;
    }
  }

  /** The name a record's target denotes once its trailing dots are gone. */
  function TargetName(r: SRV): string {
    TrimRightDots(r.target)
  }

  predicate Parses(parse: Parser, r: SRV) {
    parse(TargetName(r)).Success?
  }

  /** The loop of `queryDNS` over already sorted records, and the error
      tiers after it. `perr` is the last parse error seen so far. A failure
      never comes with a name. */
  function ScanRecords(domain: string, recs: seq<SRV>, lookupErr: Option<string>,
                       parse: Parser, perr: Option<ResolveError>): (r: Reply)
    ensures r.err.Some? ==> r.name == ZeroConnName
    ensures r.err.None? ==> exists i :: 0 <= i < |recs| && Parses(parse, recs[i])
                                        && r.name == parse(TargetName(recs[i])).value
    decreases |recs|
  {
    if |recs| == 0 then
      if lookupErr.Some? then Reply(ZeroConnName, Some(LookupFailed(domain, lookupErr.value)))
      else if perr.Some? then Reply(ZeroConnName, perr)
      else Reply(ZeroConnName, Some(NoRecords(domain)))
    else
      match parse(TargetName(recs[0]))
      case Success(cn) => Reply(cn, None)
      case Failure(e) =>
        var r := ScanRecords(domain, recs[1..], lookupErr, parse, Some(ParseFailed(domain, e)));
        // a record of the tail is a record of `recs`, one position later
        assert forall i :: 0 <= i < |recs[1..]| ==> recs[1..][i] == recs[i + 1];
        r
  }

  /** `recs[i]` is the first record whose target parses. */
  ghost predicate FirstParseableAt(parse: Parser, recs: seq<SRV>, i: int) {
    && 0 <= i < |recs|
    && Parses(parse, recs[i])
    && forall j :: 0 <= j < i ==> !Parses(parse, recs[j])
  }

  /** The loop succeeds exactly when some record parses. */
  lemma {:induction false} ScanSucceedsIffParseable(domain: string, recs: seq<SRV>, lookupErr: Option<string>,
                                                    parse: Parser, perr: Option<ResolveError>)
    ensures ScanRecords(domain, recs, lookupErr, parse, perr).err.None? <==>
            exists i :: 0 <= i < |recs| && Parses(parse, recs[i])
    decreases |recs|
  {
    if |recs| > 0 && !Parses(parse, recs[0]) {
      var e := parse(TargetName(recs[0])).error;
      var tail := recs[1..];
      ScanSucceedsIffParseable(domain, tail, lookupErr, parse, Some(ParseFailed(domain, e)));
      if exists i :: 0 <= i < |recs| && Parses(parse, recs[i]) {
        var i :| 0 <= i < |recs| && Parses(parse, recs[i]);
        assert tail[i - 1] == recs[i];
      }
    } else if |recs| > 0 {
      assert Parses(parse, recs[0]);
    }
  }

  /** When `recs[i]` is the first record that parses, the loop returns its
      name: the records before it are skipped, whatever the lookup error. */
  lemma {:induction false} ScanReturnsFirstParseable(domain: string, recs: seq<SRV>, lookupErr: Option<string>,
                                                     parse: Parser, perr: Option<ResolveError>, i: int)
    requires FirstParseableAt(parse, recs, i)
    ensures ScanRecords(domain, recs, lookupErr, parse, perr) == Reply(parse(TargetName(recs[i])).value, None)
    decreases |recs|
  {
    if i > 0 {
      assert !Parses(parse, recs[0]);
      var e := parse(TargetName(recs[0])).error;
      var tail := recs[1..];
      assert FirstParseableAt(parse, tail, i - 1) by {
        forall j | 0 <= j < i - 1 ensures !Parses(parse, tail[j]) {
          assert tail[j] == recs[j + 1];
        }
        assert tail[i - 1] == recs[i];
      }
      ScanReturnsFirstParseable(domain, tail, lookupErr, parse, Some(ParseFailed(domain, e)), i - 1);
    }
  }

  /** When the loop finds nothing: the lookup error if there is one, else
      the parse error of the last record, else the error carried in (none
      at the start, so "no valid SRV records"). */
  lemma {:induction false} ScanErrorTiers(domain: string, recs: seq<SRV>, lookupErr: Option<string>,
                                          parse: Parser, perr: Option<ResolveError>)
    ensures var r := ScanRecords(domain, recs, lookupErr, parse, perr);
      && (r.err.Some? && lookupErr.Some? ==> r.err == Some(LookupFailed(domain, lookupErr.value)))
      && (r.err.Some? && lookupErr.None? && |recs| > 0 ==>
            && !Parses(parse, recs[|recs| - 1])
            && r.err == Some(ParseFailed(domain, parse(TargetName(recs[|recs| - 1])).error)))
      && (lookupErr.None? && |recs| == 0 ==>
            r.err == (if perr.Some? then perr else Some(NoRecords(domain))))
    decreases |recs|
  {
    if |recs| > 0 && !Parses(parse, recs[0]) {
      var e := parse(TargetName(recs[0])).error;
      ScanErrorTiers(domain, recs[1..], lookupErr, parse, Some(ParseFailed(domain, e)));
      if |recs| > 1 {
        assert recs[1..][|recs[1..]| - 1] == recs[|recs| - 1];
      }
    }
  }

  /** `queryDNS`: sort the records, return the first whose target parses,
      otherwise the lookup error, else the last parse error, else the
      "no valid SRV records" error. Never a name together with an error. */
  function QueryDNS(domain: string, answer: SrvAnswer, parse: Parser): (r: Reply)
    ensures r.err.Some? ==> r.name == ZeroConnName
    ensures r.err.None? ==> exists k :: k in answer.records && Parses(parse, k)
                                        && r.name == parse(TargetName(k)).value
  {
    var sorted := SortRecords(answer.records);
    var r := ScanRecords(domain, sorted, answer.err, parse, None);
    SortRecordsSameMembers(answer.records);
    r
  }

  /** The record the resolver should pick: it parses, and no record that
      parses sorts before it. */
  ghost predicate IsBestRecord(records: seq<SRV>, parse: Parser, k: SRV) {
    && k in records
    && Parses(parse, k)
    && forall j :: j in records && Parses(parse, j) ==> RecordLessEq(k, j)
  }

  /** The record that sorts last among all of them. */
  ghost predicate IsLastRecord(records: seq<SRV>, m: SRV) {
    m in records && forall j :: j in records ==> RecordLessEq(j, m)
  }

  /** `queryDNS` succeeds exactly when some looked-up record parses, whatever
      the lookup error, and then names the best such record. */
  lemma QueryDNSResolves(domain: string, answer: SrvAnswer, parse: Parser)
    ensures var r := QueryDNS(domain, answer, parse);
      && (r.err.None? <==> exists k :: k in answer.records && Parses(parse, k))
      && (r.err.None? ==> exists k :: IsBestRecord(answer.records, parse, k)
                                      && r.name == parse(TargetName(k)).value)
  {
    var sorted := SortRecords(answer.records);
    SortRecordsSameMembers(answer.records);
    ScanSucceedsIffParseable(domain, sorted, answer.err, parse, None);
    var r := QueryDNS(domain, answer, parse);
    if exists k :: k in answer.records && Parses(parse, k) {
      var k :| k in answer.records && Parses(parse, k);
      assert k in sorted;
      var i := FirstParseableIndex(parse, sorted);
      ScanReturnsFirstParseable(domain, sorted, answer.err, parse, None, i);
      FirstParseableIsBest(answer.records, sorted, parse, i);
    }
  }

  /** The index of the first parseable record, when some record parses. */
  function FirstParseableIndex(parse: Parser, recs: seq<SRV>): (i: int)
    requires exists j :: 0 <= j < |recs| && Parses(parse, recs[j])
    ensures FirstParseableAt(parse, recs, i)
  {
    FirstParseableFrom(parse, recs, 0)
  }

  /** The search from position `start`, with nothing before it parseable. */
  function FirstParseableFrom(parse: Parser, recs: seq<SRV>, start: nat): (i: int)
    requires exists j :: start <= j < |recs| && Parses(parse, recs[j])
    requires forall j :: 0 <= j < start ==> !Parses(parse, recs[j])
    ensures FirstParseableAt(parse, recs, i)
    decreases |recs| - start
  {
    if Parses(parse, recs[start]) then start
    else FirstParseableFrom(parse, recs, start + 1)
  }

  /** The error tiers of `queryDNS`: a lookup error outranks parse errors;
      without one, the parse error of the record sorting last is reported;
      with no records at all, "no valid SRV records". */
  lemma QueryDNSErrorTiers(domain: string, answer: SrvAnswer, parse: Parser)
    ensures var r := QueryDNS(domain, answer, parse);
      && (r.err.Some? && answer.err.Some? ==> r.err == Some(LookupFailed(domain, answer.err.value)))
      && (r.err.Some? && answer.err.None? && |answer.records| > 0 ==>
            exists m :: IsLastRecord(answer.records, m) && !Parses(parse, m)
                        && r.err == Some(ParseFailed(domain, parse(TargetName(m)).error)))
      && (answer.err.None? && |answer.records| == 0 ==>
            r == Reply(ZeroConnName, Some(NoRecords(domain))))
  {
    var sorted := SortRecords(answer.records);
    ScanErrorTiers(domain, sorted, answer.err, parse, None);
    if |answer.records| > 0 {
      SortedLastIsLast(answer.records);
    } else {
      assert sorted == [];
    }
  }

  /** The last record after sorting is the one sorting last. */
  lemma SortedLastIsLast(records: seq<SRV>)
    requires |records| > 0
    ensures |SortRecords(records)| > 0
    ensures IsLastRecord(records, SortRecords(records)[|SortRecords(records)| - 1])
  {
    PermutationLastIsLast(records, SortRecords(records));
  }

  /** The last record of any sorted arrangement of `records` is the one
      that sorts last among them. */
  lemma PermutationLastIsLast(records: seq<SRV>, sorted: seq<SRV>)
    requires |records| > 0 && Sorted(sorted) && multiset(sorted) == multiset(records)
    ensures |sorted| > 0 && IsLastRecord(records, sorted[|sorted| - 1])
  {
    assert records[0] in multiset(sorted);
    var m := sorted[|sorted| - 1];
    assert m in multiset(records);
    forall j | j in records ensures RecordLessEq(j, m) {
      assert j in multiset(sorted);
      SortedLastIsMax(sorted, j);
    }
  }

  lemma FirstParseableIsBest(records: seq<SRV>, sorted: seq<SRV>, parse: Parser, i: int)
    requires Sorted(sorted)
    requires forall k :: k in records <==> k in sorted
    requires FirstParseableAt(parse, sorted, i)
    ensures IsBestRecord(records, parse, sorted[i])
  {
    forall k | k in records && Parses(parse, k) ensures RecordLessEq(sorted[i], k) {
      var x :| 0 <= x < |sorted| && sorted[x] == k;
      if x > i {
        assert RecordLessEq(sorted[i], sorted[x]);
      }
    }
  }

  /** The records' arrival order never changes the outcome, result or error. */
  lemma {:induction false} QueryDNSOrderIndependent(domain: string, a: seq<SRV>, b: seq<SRV>,
                                 err: Option<string>, parse: Parser)
    requires multiset(a) == multiset(b)
    ensures QueryDNS(domain, SrvAnswer(a, err), parse) == QueryDNS(domain, SrvAnswer(b, err), parse)
  {
    SortRecordsOrderIndependent(a, b);
  }

  /** `Lookup`: a canonical name is returned as parsed, without DNS; any
      other input is handed to `queryDNS` as a domain name, whose reply is
      returned as is. */
  function Lookup(icn: string, answer: SrvAnswer, parse: Parser): (r: Reply)
    ensures parse(icn).Success? ==> r == Reply(parse(icn).value, None)
    ensures parse(icn).Failure? ==> r == QueryDNS(icn, answer, parse)
  {
    match parse(icn)
    case Success(cn) => Reply(cn, None)
    case Failure(_) =>
      var q := QueryDNS(icn, answer, parse);
      if q.err.Some? then Reply(ZeroConnName, q.err) else Reply(q.name, None)
  }

  /** A lookup that failed only partly still resolves when one of the
      records it did return parses; the lookup error is then dropped. */
  lemma PartialLookupFailureStillResolves(domain: string, answer: SrvAnswer, parse: Parser, k: SRV)
    requires parse(domain).Failure?
    requires answer.err.Some?
    requires k in answer.records && Parses(parse, k)
    ensures Lookup(domain, answer, parse).err.None?
  {
    QueryDNSResolves(domain, answer, parse);
  }

  /** A stand-in parser for the example below: a name needs a colon. */
  function ToyParse(s: string): Result<ConnName, string> {
    if ':' in s then Success(ConnName("", "", s)) else Failure("not a connection name")
  }

  /** The two records of the example below, sorted: priority 5 first. */
  lemma ExampleSort()
    ensures SortRecords([SRV(10, "p:r:b."), SRV(5, "p:r:a.")]) == [SRV(5, "p:r:a."), SRV(10, "p:r:b.")]
  {
    var a, b := SRV(5, "p:r:a."), SRV(10, "p:r:b.");
    assert [b, a][1..] == [a];
    assert [a][1..] == [];
    assert SortRecords([a]) == [a];
    assert !RecordLessEq(b, a);
  }

  lemma ExampleParse()
    ensures ToyParse(TrimRightDots("p:r:a.")) == Success(ConnName("", "", "p:r:a"))
    ensures ToyParse("db.example.com").Failure?
  {
    assert "p:r:a."[..5] == "p:r:a";
    assert "p:r:a"[1] == ':';
  }

  /** Two parseable records: the one with priority 5 wins over the one with
      priority 10, and its target loses its trailing dot. */
  lemma LowestPriorityExample()
    ensures Lookup("db.example.com", SrvAnswer([SRV(10, "p:r:b."), SRV(5, "p:r:a.")], None), ToyParse)
            == Reply(ConnName("", "", "p:r:a"), None)
  {
    ExampleSort();
    ExampleParse();
  }
}

=== FILE: wrappers.dfy ===
/** Failure-carrying values standing in for Go's `nil`-able error results. */
module Wrappers {

  /** A value that may be absent; `None` plays the role of a nil error. */
  datatype Option<+T> = None | Some(value: T)

  /** Either a value or an error, for calls whose Go signature is `(T, error)`
      and whose two results are never both meaningful. */
  datatype Result<+R, +E> = Success(value: R) | Failure(error: E)
}
